=== FILE: README.md ===
# Portfolio page behaviour, modelled in Dafny

This project models the decision rules inside the client-side script of a personal
portfolio page (`script.js`), lifted out of the DOM:

- **ScrollRouter**: the scroll handler's two threshold flags (navbar "scrolled" above 50 px,
  scroll-to-top button "visible" above 300 px) and the active-section highlighting. Sections
  are `Section(id, top, height)` records in document order. A section matches offset `y`
  when `top - 100 < y <= top - 100 + height`. Every match clears all link flags and sets the
  flag on the links whose href is `"#" + id`. The result is proved equal to a reference
  definition: the last match wins, and with no match the flags are kept.
- **Theme**: the initial theme (the stored value, or `dark` when it is absent or empty), the
  toggle (`dark` to `light`, anything else to `dark`), the icon class, and the stored preference.
- **Menu**: the hamburger/menu "active" flags under hamburger clicks, link clicks and Escape,
  and the arrow-key focus move, which starts from the first active link (or the first link).
- **ContactForm**: the submit handler's checks in order. First the required fields, then
  the email pattern `^[^\s@]+@[^\s@]+\.[^\s@]+$`, then the unencoded mail body
  `Name: n\nEmail: e\n\nMessage:\nm`, the `mailto:` link and the notification raised.
- **Notifications**: the single notification slot with an explicit millisecond clock and a
  queue of pending timer callbacks. Each callback remembers the notification it was created
  for, so a callback left over from a replaced notification changes nothing.
- **TypeWriter**: the hero-name animation, one character per call.

All state is immutable records and sequences; every handler is a pure function from the old
state and the event's inputs to the new state.

Two behaviours of the code that are easy to misread:
- With no matching section, the code leaves every link flag as it was. It does not clear them.
- At offset 0, a section that starts at offset 0 matches only if it is at least 100 px tall.
  Its link ends active when it is the last match. It is cleared when another section is the
  last match. It keeps its flag only when nothing matches.

## Model

| member | source | states |
|---|---|---|
| ScrollRouter.OnScroll | script.js:40-56 | the navbar is scrolled iff the offset exceeds 50, the button is visible iff it exceeds 300, and the links become what the last matching section decides |
| ScrollRouter.ScrollFlagBoundaries | script.js:41-52 | both flags are off at exactly 50 and 300 and on one pixel later; the button is never visible without the scrolled navbar; both flags only switch on as the offset grows |
| ScrollRouter.Highlight | script.js:107-112 | one match keeps every href and makes a link active exactly when its href is `#` followed by the section id |
| ScrollRouter.HighlightOverrides | script.js:107-112 | a later match's clear-then-set erases all trace of an earlier one |
| ScrollRouter.UpdateActive | script.js:97-115 | the scan, which rewrites the flags for every section in `Matches` (the window `top - 100 < y <= top - 100 + height` of line 106), keeps the number and the hrefs of the links |
| ScrollRouter.LastMatchIndex | script.js:101-106 | reference winner: a matching section with no later match, or none when no section matches |
| ScrollRouter.LastMatchWins | script.js:101-114 | the scan's result is the last match's highlight, or the unchanged links when nothing matches |
| ScrollRouter.ActiveIffLastMatch | script.js:106-112 | after an update with a match, a link is active iff its href names the last matching section |
| ScrollRouter.NoMatchKeepsFlags | script.js:101-114 | when no section matches, every link flag is left exactly as it was |
| ScrollRouter.OnlyLastMatchMatters | script.js:101-114 | two section lists whose last matches share an id give the same links, whatever matched earlier |
| ScrollRouter.UpdateKeepsAtMostOneActive | script.js:101-114 | with distinct hrefs, an update in which some section matches leaves at most one link active whatever the flags were; with no match, "at most one active" is kept |
| Theme.InitialTheme | script.js:120 | the stored value when present and non-empty, otherwise `dark` |
| Theme.Toggle | script.js:126-127 | the result is always `dark` or `light`, and it is `light` exactly when the input was `dark` |
| Theme.Icon | script.js:135-140 | the icon is the sun iff the theme is `dark`, the moon otherwise |
| Theme.Load | script.js:120-122 | page load applies the initial theme with a matching icon and writes nothing |
| Theme.Click | script.js:125-132 | a click sets the theme to the toggle of the current one (so always `dark` or `light`, and different from before), stores it, and keeps the icon in step |
| Theme.ToggleTwice | script.js:127 | toggling twice is the identity on `dark` and `light` |
| Theme.ToggleTwiceUnknown | script.js:127 | on any other stored value two toggles end on `light`, not on the start value |
| Theme.ReloadAfterClick | script.js:120-131 | after a click, reloading the page from the stored value restores the same theme and icon |
| Theme.TwoClicksRestore | script.js:120-132 | from a loaded page with a known theme, two clicks restore theme and icon |
| Menu.OnHamburgerClick | script.js:62-65 | a hamburger click flips both flags |
| Menu.OnLinkClick | script.js:69-74 | a link click clears both flags |
| Menu.HamburgerTwice | script.js:63-64 | two hamburger clicks restore the menu |
| Menu.FirstActive | script.js:381 | the first link in order with the active flag, or none |
| Menu.StartIndex | script.js:381-382 | the first active link's index, 0 when none is active, -1 when there are no links |
| Menu.OnKeyDown | script.js:372-392 | Escape closes an open menu and focuses nothing; ArrowDown focuses start+1 iff the menu is open and that link exists; ArrowUp focuses start-1 iff the menu is open and start > 0; focus stays within the links |
| Menu.RunKeepsSync | script.js:61-74 | from agreeing flags, any sequence of hamburger clicks, link clicks and keys (including the Escape branch of lines 374-377) keeps the hamburger's and the menu's flags equal |
| Menu.ArrowDownRepeats | script.js:380-386 | a second ArrowDown targets the same link, because focus does not move the start index |
| ContactForm.EmailPattern | script.js:176 | the regex as written: a non-empty `[^\s@]` run, `@`, a non-empty run, `.`, a non-empty run; an accepted string is at least 5 characters long and starts and ends with a `[^\s@]` character |
| ContactForm.PatternIsWellFormed | script.js:176 | an accepted address has no whitespace, exactly one `@`, a non-empty local part and an inner dot in the domain |
| ContactForm.WellFormedIsPattern | script.js:176 | every such address is accepted by the pattern |
| ContactForm.EmailPatternMeaning | script.js:176-177 | the pattern accepts a string iff it is well formed in the sense above |
| ContactForm.Validate | script.js:170-187 | missing field iff name, email or message is empty; bad email iff all are present and the address is not well formed; otherwise the subject (possibly empty) and the template body |
| ContactForm.MailBody | script.js:186 | the unencoded body starts with `Name: <name>`, the `Email: ` label and the email, ends with the message, and adds 25 template characters; `ParseMailBody` reads it back |
| ContactForm.MailtoLink | script.js:186 | the link is the fixed address and query prefix, the encoded subject, the `&body=` key, and the encoded body at its end |
| ContactForm.OnSubmit | script.js:158-195 | navigation and the 1000 ms reset happen iff validation succeeds; the notice is an error exactly when nothing is opened, with the message for the failed check |
| ContactForm.ParseMailBody | script.js:186 | a body built from a single-line name and an email without newlines is read back into the same three fields |
| ContactForm.AcceptedBodyRoundTrip | script.js:176-186 | for an accepted form with a single-line name, the body gives back name, email and message |
| ContactForm.MissingNameExample | script.js:170-173 | an empty name is refused as a missing field |
| ContactForm.BadEmailExample | script.js:176-180 | `bad-email` is refused by the pattern |
| ContactForm.AcceptedExample | script.js:170-187 | `A`, `a@b.com`, `hi` with no subject is accepted with the template body |
| Notifications.Colour | script.js:234 | green iff the kind is `success`, red iff `error`, indigo for every other kind |
| Notifications.KindOf | script.js:217 | the given kind, or one shown in indigo when none is given |
| Notifications.Notify | script.js:217-234 | a call without a kind shows the message with the default kind, in indigo; a given kind is kept |
| Notifications.EmptyIsValid | script.js:217-222 | the page before any call satisfies the invariant the lifecycle lemmas start from |
| Notifications.Show | script.js:217-273 | afterwards exactly one notification is on screen, the new one, showing, whatever was there before; its fade-out is due in 5000 ms |
| Notifications.Run | script.js:273-278 | on the notification on screen, the fade-out callback sets it fading and the removal callback empties the slot; on any other notification nothing changes; the fade-out schedules exactly its removal 300 ms later, and the removal schedules nothing |
| Notifications.FireDue | script.js:273-278 | every callback due by `now` leaves the queue, and each due fade-out has scheduled its removal 300 ms later; every callback not yet due stays pending; new callbacks are only for notifications already queued (what fired callbacks do to the slot is proved by `FireDueProjects` and the `TickWhile` lemmas) |
| Notifications.Tick | script.js:272-278 | one millisecond passes and no callback for a not-yet-created notification appears |
| Notifications.FireDueProjects | script.js:273-278 | while the slot holds notification `id` or nothing, the other notifications' callbacks change nothing of it |
| Notifications.TickStillShowing | script.js:273 | a tick before 5000 ms keeps the notification showing with its fade-out pending |
| Notifications.TickStartsFade | script.js:273-275 | the tick at exactly 5000 ms starts the fade and schedules the removal for 5300 ms |
| Notifications.TickWhileShowing | script.js:273-274 | a tick keeps a showing notification showing, or starts its fade at exactly 5000 ms |
| Notifications.TickWhileFading | script.js:275-277 | a tick keeps a fading notification fading, or removes it at exactly 5300 ms |
| Notifications.TickWhileGone | script.js:276 | after removal, ticks leave the notification gone with nothing of its own pending |
| Notifications.TickTracks | script.js:272-278 | one tick keeps a notification on its show-fade-remove schedule |
| Notifications.ShowStartsTracking | script.js:270-273 | a new notification starts showing with exactly its fade-out callback pending |
| Notifications.UntouchedLifecycle | script.js:272-278 | an untouched notification shows for 5000 ms, fades for 300 ms and is gone from 5300 ms on |
| Notifications.ReplacedNeverReturns | script.js:219-222 | after a second call the slot holds only the second notification or nothing, so the first never fades out on screen |
| TypeWriter.Type | script.js:20-26 | a call appends the next character and reschedules iff characters remain, and changes nothing otherwise |
| TypeWriter.AfterIsPrefix | script.js:16-28 | after k calls the element shows the first min(k, length) characters of the text |
| TypeWriter.TypingEnds | script.js:20-28 | the shown text is always a prefix, the chain reschedules exactly while it is incomplete, and it ends with the whole text |

## Left out

- DOM queries, class-list and style mutation, and listener registration. The elements are
  assumed present. Their state is records: link flags, menu flags, theme attribute, slot.
- Real timers. Callbacks are a queue on a 1 ms discrete clock. Type-writer calls are counted,
  not timed.
- Storage and navigation are I/O. Only the value read (`None` for an absent key) and the link
  to open are modelled.
- `encodeURIComponent` is a foreign built-in, so it is a function parameter of `MailtoLink`
  and `OnSubmit`.
- The form reset is modelled only as the 1000 ms delay the handler requests. `console.log`
  and the commented-out backend path are left out.
- Layout is not modelled: offsets and heights are integer inputs. Fractional offsets and live
  recomputation are left out.
- The anchor smooth-scroll handler and the scroll-to-top click are left out. They only call
  the browser's scroll.
- The parallax transform is floating-point presentation. The observers (fade-in, lazy
  images), hover transforms, injected keyframe CSS, the per-call style node and the
  notification's other style properties are left out as well.
- JavaScript strings are UTF-16 code units, and the model's strings are Unicode scalar values.
  The email pattern agrees on both, because no whitespace character lies outside the Basic
  Multilingual Plane. The type-writer reveals surrogate pairs one half at a time, which the
  model does not show.
- The `\s` class is spelled out as the ECMAScript WhiteSpace and LineTerminator code points
  of ECMA-262. Other engines' Unicode tables are not modelled.

=== FILE: common.dfy ===
/** Small shared vocabulary for the portfolio page model. */
module Common {

  /** A value that may be absent: a missing stored preference, no matching section, no focus target. */
  datatype Option<T> = None | Some(value: T)

  /** The smaller of two integers. */
  function Min(a: int, b: int): (m: int)
    ensures m <= a && m <= b
    ensures m == a || m == b
  {
    if a <= b then a else b
  }
}

=== FILE: contact_form.dfy ===
/**
 The contact form's submit handler: the required-field check, the email pattern
 `^[^\s@]+@[^\s@]+\.[^\s@]+$`, and, on success, the mail body and the `mailto:` link
 with its notification. Percent-encoding is the browser's `encodeURIComponent`, passed in
 as a function; the navigation itself is reported as the link to open.
 */
module ContactForm {
  import opened Common

  datatype Form = Form(name: string, email: string, subject: string, message: string)

  /** The three outcomes of validation, in the order the handler checks them. */
  datatype Verdict = MissingField | BadEmail | Ok(subject: string, body: string)

  /** What the handler does: the notification it raises, the link it navigates to (if any),
      and the delay after which it resets the form (if any). */
  datatype Effect = Effect(noticeMessage: string, noticeKind: string,
                           navigate: Option<string>, resetAfterMs: Option<nat>)

  const MissingFieldText: string := "Please fill in all required fields."
  const BadEmailText: string := "Please enter a valid email address."
  const OpeningText: string := "Opening your email client..."
  const MailtoPrefix: string := "mailto:sonuyadav97297@gmail.com?subject="
  const BodyKey: string := "&body="
  const ResetDelayMs: nat := 1000

  /** The characters of the ECMAScript `\s` class: WhiteSpace and LineTerminator code points. */
  predicate IsJsSpace(c: char)
  {
    || c == '\t' || c == '\n' || c == '\U{000B}' || c == '\U{000C}' || c == '\r' || c == ' '
    || c == '\U{00A0}' || c == '\U{1680}' || ('\U{2000}' <= c <= '\U{200A}')
    || c == '\U{2028}' || c == '\U{2029}' || c == '\U{202F}' || c == '\U{205F}'
    || c == '\U{3000}' || c == '\U{FEFF}'
  }

  /** A character of the class `[^\s@]`. */
  predicate Plain(c: char) { !IsJsSpace(c) && c != '@' }

  /** A run `[^\s@]*`; the pattern's `+` adds non-emptiness at each use. */
  predicate AllPlain(s: string)
  {
    forall k :: 0 <= k < |s| ==> Plain(s[k])
  }

  /** The pattern as written: the whole string splits as local `@` domain-head `.` tail, each
      part a non-empty `[^\s@]` run. */
  predicate EmailPattern(s: string): (r: bool)
    ensures r ==> |s| >= 5 && Plain(s[0]) && Plain(s[|s| - 1])
  {
    var r := exists i, j ::
      && 0 < i && i + 1 < j && j + 1 < |s| && s[i] == '@' && s[j] == '.'
      && AllPlain(s[..i]) && AllPlain(s[i + 1..j]) && AllPlain(s[j + 1..]);
    assert r ==> Plain(s[0]) && Plain(s[|s| - 1]) by {
      if r {
        var i, j :| 0 < i && i + 1 < j && j + 1 < |s| && s[i] == '@' && s[j] == '.'
          && AllPlain(s[..i]) && AllPlain(s[i + 1..j]) && AllPlain(s[j + 1..]);
        assert s[0] == s[..i][0];
        assert s[|s| - 1] == s[j + 1..][|s| - j - 2];
      }
    }
    r
  }

  predicate NoSpace(s: string)
  {
    forall k :: 0 <= k < |s| ==> !IsJsSpace(s[k])
  }

  /** The domain has a dot that is neither its first nor its last character. */
  predicate InnerDot(d: string)
  {
    exists k :: 0 < k < |d| - 1 && d[k] == '.'
  }

  /** What the pattern means: no whitespace, exactly one `@`, something before it, and a
      domain after it with an inner dot. */
  predicate WellFormedEmail(s: string)
  {
    && NoSpace(s)
    && multiset(s)['@'] == 1
    && exists at :: 0 < at < |s| && s[at] == '@' && InnerDot(s[at + 1..])
  }

  lemma NoAtInPlain(s: string)
    requires AllPlain(s)
    ensures multiset(s)['@'] == 0
  {
  }

  /** A run of plain characters inside `s` is a plain slice. */
  lemma PlainSlice(s: string, lo: nat, hi: nat)
    requires lo <= hi <= |s|
    requires forall q :: lo <= q < hi ==> Plain(s[q])
    ensures AllPlain(s[lo..hi])
  {
  }

  /** The characters of a plain slice are plain characters of `s`. */
  lemma SliceChars(s: string, lo: nat, hi: nat)
    requires lo <= hi <= |s|
    requires AllPlain(s[lo..hi])
    ensures forall q :: lo <= q < hi ==> Plain(s[q])
  {
  }

  /** Counting `@` across the three parts of an address. */
  lemma CountAt(s: string, i: nat)
    requires i < |s| && s[i] == '@'
    requires AllPlain(s[..i]) && AllPlain(s[i + 1..])
    ensures multiset(s)['@'] == 1
  {
    assert s == s[..i] + [s[i]] + s[i + 1..];
    NoAtInPlain(s[..i]);
    NoAtInPlain(s[i + 1..]);
  }

  /** With exactly one `@` in `s` at index `at`, every other character differs from `@`. */
  lemma OnlyAt(s: string, at: nat, k: nat)
    requires at < |s| && s[at] == '@' && multiset(s)['@'] == 1
    requires k < |s| && k != at
    ensures s[k] != '@'
  {
    var lo, hi := if k < at then k else at, if k < at then at else k;
    assert s == s[..lo] + [s[lo]] + s[lo + 1..hi] + [s[hi]] + s[hi + 1..];
  }

  /** Every string the pattern accepts is well formed. */
  lemma PatternIsWellFormed(s: string)
    requires EmailPattern(s)
    ensures WellFormedEmail(s)
  {
    var i, j :| 0 < i && i + 1 < j && j + 1 < |s| && s[i] == '@' && s[j] == '.'
      && AllPlain(s[..i]) && AllPlain(s[i + 1..j]) && AllPlain(s[j + 1..]);
    SliceChars(s, 0, i);
    SliceChars(s, i + 1, j);
    SliceChars(s, j + 1, |s|);
    assert s[..i] == s[0..i];
    assert s[j + 1..] == s[j + 1..|s|];
    assert forall k :: 0 <= k < |s| && k != i && k != j ==> Plain(s[k]);
    PlainSlice(s, i + 1, |s|);
    assert s[i + 1..] == s[i + 1..|s|];
    CountAt(s, i);
    var d := s[i + 1..];
    assert d[j - i - 1] == '.';
  }

  /** Every well-formed string is accepted by the pattern. */
  lemma WellFormedIsPattern(s: string)
    requires WellFormedEmail(s)
    ensures EmailPattern(s)
  {
    var at :| 0 < at < |s| && s[at] == '@' && InnerDot(s[at + 1..]);
    var d := s[at + 1..];
    var k :| 0 < k < |d| - 1 && d[k] == '.';
    var j := at + 1 + k;
    assert s[j] == '.';
    forall q | 0 <= q < |s| && q != at
      ensures Plain(s[q])
    {
      OnlyAt(s, at, q);
    }
    PlainSlice(s, 0, at);
    PlainSlice(s, at + 1, j);
    PlainSlice(s, j + 1, |s|);
    assert s[..at] == s[0..at];
    assert s[j + 1..] == s[j + 1..|s|];
  }

  /** The pattern accepts exactly the well-formed addresses. */
  lemma EmailPatternMeaning(s: string)
    ensures EmailPattern(s) <==> WellFormedEmail(s)
  {
    if EmailPattern(s) { PatternIsWellFormed(s); }
    if WellFormedEmail(s) { WellFormedIsPattern(s); }
  }

  /** The mail body template, before encoding. */
  function MailBody(name: string, email: string, message: string): (b: string)
    ensures |b| == |name| + |email| + |message| + 25
    ensures "Name: " + name + "\nEmail: " <= b
    ensures b[|name| + 14..|name| + 14 + |email|] == email
    ensures b[|b| - |message|..] == message
  {
    "Name: " + name + "\nEmail: " + email + "\n\nMessage:\n" + message
  }

  /** The checks in the handler's order: required fields (empty strings), then the email
      pattern; only then the subject and body to send. */
  function Validate(f: Form): (v: Verdict)
    ensures v.MissingField? <==> f.name == "" || f.email == "" || f.message == ""
    ensures v.BadEmail? <==> f.name != "" && f.email != "" && f.message != "" && !WellFormedEmail(f.email)
    ensures v.Ok? ==> v.subject == f.subject && v.body == MailBody(f.name, f.email, f.message)
  {
    EmailPatternMeaning(f.email);
    if f.name == "" || f.email == "" || f.message == "" then MissingField
    else if !EmailPattern(f.email) then BadEmail
    else Ok(f.subject, MailBody(f.name, f.email, f.message))
  }

  /** The link the handler navigates to. */
  function MailtoLink(encode: string -> string, subject: string, body: string): (l: string)
    ensures MailtoPrefix <= l
    ensures |l| == |MailtoPrefix| + |encode(subject)| + |BodyKey| + |encode(body)|
    ensures l[|MailtoPrefix|..|MailtoPrefix| + |encode(subject)|] == encode(subject)
    ensures l[|MailtoPrefix| + |encode(subject)|..|l| - |encode(body)|] == BodyKey
    ensures l[|l| - |encode(body)|..] == encode(body)
  {
    MailtoPrefix + encode(subject) + BodyKey + encode(body)
  }

  /** The whole submit handler. */
  function OnSubmit(f: Form, encode: string -> string): (e: Effect)
    ensures e.navigate.Some? <==> Validate(f).Ok?
    ensures e.noticeKind == "error" <==> e.navigate.None?
    ensures e.resetAfterMs.Some? <==> e.navigate.Some?
    ensures Validate(f).MissingField? ==> e.noticeMessage == MissingFieldText
    ensures Validate(f).BadEmail? ==> e.noticeMessage == BadEmailText
    ensures Validate(f).Ok? ==>
      && e.noticeMessage == OpeningText
      && e.noticeKind == "success"
      && e.navigate == Some(MailtoLink(encode, f.subject, MailBody(f.name, f.email, f.message)))
      && e.resetAfterMs == Some(ResetDelayMs)
  {
    match Validate(f)
    case MissingField => Effect(MissingFieldText, "error", None, None)
    case BadEmail => Effect(BadEmailText, "error", None, None)
    case Ok(subject, body) => Effect(OpeningText, "success", Some(MailtoLink(encode, subject, body)), Some(ResetDelayMs))
  }

  /** Index of the first newline in `s`, or `|s|` when there is none. */
  function LineEnd(s: string): (n: nat)
    ensures n <= |s|
    ensures forall k :: 0 <= k < n ==> s[k] != '\n'
    ensures n < |s| ==> s[n] == '\n'
    decreases |s|
  {
    if s == [] || s[0] == '\n' then 0 else 1 + LineEnd(s[1..])
  }

  /** The rest of `s` after the prefix `p`, if `s` starts with it. */
  function DropPrefix(p: string, s: string): (r: Option<string>)
    ensures r.Some? <==> p <= s
    ensures r.Some? ==> s == p + r.value
  {
    if p <= s then Some(s[|p|..]) else None
  }

  /** Reads the three fields back out of a mail body. */
  function ParseBody(b: string): Option<(string, string, string)>
  {
    match DropPrefix("Name: ", b)
    case None => None
    case Some(r1) =>
      var n := LineEnd(r1);
      match DropPrefix("\nEmail: ", r1[n..])
      case None => None
      case Some(r2) =>
        var e := LineEnd(r2);
        match DropPrefix("\n\nMessage:\n", r2[e..])
        case None => None
        case Some(m) => Some((r1[..n], r2[..e], m))
  }

  lemma DropPrefixOf(p: string, x: string)
    ensures DropPrefix(p, p + x) == Some(x)
  {
  }

  /** A single line followed by a newline splits at that newline. */
  lemma SplitLine(a: string, rest: string)
    requires forall k :: 0 <= k < |a| ==> a[k] != '\n'
    requires rest != [] && rest[0] == '\n'
    ensures LineEnd(a + rest) == |a|
    ensures (a + rest)[..|a|] == a && (a + rest)[|a|..] == rest
  {
  }

  /** The template regrouped as its parser reads it. */
  lemma MailBodyShape(name: string, email: string, message: string)
    ensures MailBody(name, email, message)
      == "Name: " + (name + ("\nEmail: " + (email + ("\n\nMessage:\n" + message))))
  {
  }

  /** The body is unambiguous: a single-line name and an email without newlines are read
      back exactly, and the message (which may span lines) is the rest. */
  lemma ParseMailBody(name: string, email: string, message: string)
    requires forall k :: 0 <= k < |name| ==> name[k] != '\n'
    requires forall k :: 0 <= k < |email| ==> email[k] != '\n'
    ensures ParseBody(MailBody(name, email, message)) == Some((name, email, message))
  {
    var p1, p2, p3 := "Name: ", "\nEmail: ", "\n\nMessage:\n";
    var t2 := p3 + message;
    var t1 := p2 + (email + t2);
    MailBodyShape(name, email, message);
    DropPrefixOf(p1, name + t1);
    SplitLine(name, t1);
    DropPrefixOf(p2, email + t2);
    SplitLine(email, t2);
    DropPrefixOf(p3, message);
  }

  /** A form that passes validation yields a body from which its fields can be recovered,
      given a single-line name (the email cannot hold a newline once it passed the pattern). */
  lemma AcceptedBodyRoundTrip(f: Form)
    requires Validate(f).Ok?
    requires forall k :: 0 <= k < |f.name| ==> f.name[k] != '\n'
    ensures ParseBody(Validate(f).body) == Some((f.name, f.email, f.message))
  {
    assert WellFormedEmail(f.email);
    forall k | 0 <= k < |f.email| ensures f.email[k] != '\n' {
      assert !IsJsSpace(f.email[k]);
    }
    ParseMailBody(f.name, f.email, f.message);
  }

  /** A form with an empty required field is refused before the email is looked at. */
  lemma MissingNameExample()
    ensures Validate(Form("", "a@b.com", "", "hi")) == MissingField
  {
  }

  /** An address without `@` is refused by the pattern. */
  lemma BadEmailExample()
    ensures Validate(Form("A", "bad-email", "", "hi")) == BadEmail
  {
    var s := "bad-email";
    assert forall i :: 0 <= i < |s| ==> s[i] != '@';
  }

  /** A complete form is accepted, with an empty subject. */
  lemma AcceptedExample()
    ensures Validate(Form("A", "a@b.com", "", "hi")) == Ok("", MailBody("A", "a@b.com", "hi"))
  {
    var s := "a@b.com";
    assert s[1] == '@' && s[3] == '.';
    PlainSlice(s, 0, 1);
    PlainSlice(s, 2, 3);
    PlainSlice(s, 4, 7);
    assert s[..1] == s[0..1] && s[4..] == s[4..7];
  }
}

=== FILE: menu.dfy ===
/**
 The mobile navigation menu and the keyboard handler. The hamburger button and the menu
 each carry an "active" class; the hamburger click toggles both, a click on a nav link
 clears both, and Escape clears both when the menu is open. While the menu is open the
 arrow keys move focus to the link after or before the currently active one.
 */
module Menu {
  import opened Common
  import opened ScrollRouter

  datatype MenuState = MenuState(hamburgerActive: bool, menuActive: bool)

  /** Both flags cleared. */
  const Closed: MenuState := MenuState(false, false)

  datatype MenuEvent = HamburgerClick | LinkClick | KeyDown(key: string)

  /** The outcome of a keydown: the new menu state and the index of the link to focus, if any. */
  datatype KeyOutcome = KeyOutcome(menu: MenuState, focus: Option<nat>)

  /** The two class flags agree. */
  predicate InSync(m: MenuState)
  {
    m.hamburgerActive == m.menuActive
  }

  function OnHamburgerClick(m: MenuState): (r: MenuState)
    ensures r.hamburgerActive != m.hamburgerActive && r.menuActive != m.menuActive
  {
    MenuState(!m.hamburgerActive, !m.menuActive)
  }

  function OnLinkClick(m: MenuState): (r: MenuState)
    ensures !r.hamburgerActive && !r.menuActive
  {
    Closed
  }

  /** Index of the first link carrying the active flag, as a document query would find it. */
  function FirstActive(links: seq<NavLink>): (r: Option<nat>)
    ensures r.Some? ==> r.value < |links| && links[r.value].active
    ensures r.Some? ==> forall j :: 0 <= j < r.value ==> !links[j].active
    ensures r.None? ==> forall j :: 0 <= j < |links| ==> !links[j].active
    decreases |links|
  {
    if links == [] then None
    else if links[0].active then Some(0)
    else match FirstActive(links[1..])
      case Some(i) => Some(i + 1)
      case None => None
  }

  /** The position the arrow keys move from: the first active link, or the first link when
      none is active; with no links at all the lookup finds nothing and yields -1. */
  function StartIndex(links: seq<NavLink>): (r: int)
    ensures links == [] <==> r == -1
    ensures links != [] ==> 0 <= r < |links|
    ensures forall j :: 0 <= j < r ==> !links[j].active
    ensures 0 <= r && !links[r].active ==> r == 0 && forall j :: 0 <= j < |links| ==> !links[j].active
  {
    if links == [] then -1
    else match FirstActive(links)
      case Some(i) => i
      case None => 0
  }

  /** The keydown handler: Escape closes an open menu; then, if the menu is (still) open,
      ArrowDown focuses the next link and ArrowUp the previous one when there is one. */
  function OnKeyDown(m: MenuState, links: seq<NavLink>, key: string): (r: KeyOutcome)
    ensures key == "Escape" ==> !r.menu.menuActive && r.focus.None?
    ensures key == "Escape" && m.menuActive ==> r.menu == Closed
    ensures key != "Escape" || !m.menuActive ==> r.menu == m
    ensures r.focus.Some? ==> r.focus.value < |links|
    ensures key == "ArrowDown" ==>
      (r.focus.Some? <==> m.menuActive && StartIndex(links) + 1 < |links|)
    ensures key == "ArrowDown" && r.focus.Some? ==> r.focus.value == StartIndex(links) + 1
    ensures key == "ArrowUp" ==> (r.focus.Some? <==> m.menuActive && StartIndex(links) > 0)
    ensures key == "ArrowUp" && r.focus.Some? ==> r.focus.value == StartIndex(links) - 1
    ensures key != "ArrowDown" && key != "ArrowUp" ==> r.focus.None?
  {
    var m1 := if key == "Escape" && m.menuActive then Closed else m;
    if !m1.menuActive then KeyOutcome(m1, None)
    else
      var cur := StartIndex(links);
      if key == "ArrowDown" && cur < |links| - 1 then KeyOutcome(m1, Some(cur + 1))
      else if key == "ArrowUp" && cur > 0 then KeyOutcome(m1, Some(cur - 1))
      else KeyOutcome(m1, None)
  }

  /** One event's effect on the menu flags. */
  function Step(m: MenuState, links: seq<NavLink>, e: MenuEvent): MenuState
  {
    match e
    case HamburgerClick => OnHamburgerClick(m)
    case LinkClick => OnLinkClick(m)
    case KeyDown(key) => OnKeyDown(m, links, key).menu
  }

  function Run(m: MenuState, links: seq<NavLink>, events: seq<MenuEvent>): MenuState
    decreases |events|
  {
    if events == [] then m else Run(Step(m, links, events[0]), links, events[1..])
  }

  /** Every event keeps the hamburger's and the menu's flags equal, so from the closed page
      they agree after any sequence of events. */
  lemma {:induction false} RunKeepsSync(m: MenuState, links: seq<NavLink>, events: seq<MenuEvent>)
    requires InSync(m)
    ensures InSync(Run(m, links, events))
    decreases |events|
  {
    if events != [] {
      var e := events[0];
      var m1 := Step(m, links, e);
      assert InSync(m1) by {
        match e
        case HamburgerClick =>
        case LinkClick =>
        case KeyDown(key) =>
      }
      RunKeepsSync(m1, links, events[1..]);
    }
  }

  /** Clicking the hamburger twice restores the menu. */
  lemma HamburgerTwice(m: MenuState)
    ensures OnHamburgerClick(OnHamburgerClick(m)) == m
  {
  }

  /** Focus does not feed back into the start index: pressing ArrowDown again targets the
      same link, since only the active flag, not focus, decides where the move starts. */
  lemma ArrowDownRepeats(m: MenuState, links: seq<NavLink>)
    ensures OnKeyDown(OnKeyDown(m, links, "ArrowDown").menu, links, "ArrowDown")
         == OnKeyDown(m, links, "ArrowDown")
  {
  }
}

=== FILE: notifications.dfy ===
/**
 The notification slot. Each call shows one notification, removing any that is on screen,
 and schedules its dismissal: after 5000 ms the slide-out animation starts, and 300 ms
 after that the element is removed. Timers are an explicit queue of pending callbacks on a
 millisecond clock; each callback holds the notification it was created for, so a callback
 left over from a replaced notification acts on a detached element and changes nothing.
 */
module Notifications {
  import opened Common

  const ShowMs: int := 5000
  const FadeMs: int := 300

  const SuccessColour: string := "#10B981"
  const ErrorColour: string := "#EF4444"
  const InfoColour: string := "#6366F1"

  /** The kind used when the caller gives none. */
  const DefaultKind: string := "info"

  datatype Phase = Showing | FadingOut
  datatype Note = Note(id: nat, message: string, kind: string, phase: Phase)

  datatype Action = StartFade | Remove
  /** A pending callback: when it is due, which notification it was created for, what it does. */
  datatype Timer = Timer(due: int, target: nat, action: Action)

  /** The clock, the notification on screen (if any), the pending callbacks in the order they
      were scheduled, and the identity the next notification gets. */
  datatype Center = Center(now: int, shown: Option<Note>, timers: seq<Timer>, nextId: nat)

  /** The result of running callbacks: the notification left on screen, the callbacks that
      were not yet due, and the callbacks the fired ones scheduled. */
  datatype Fired = Fired(shown: Option<Note>, kept: seq<Timer>, spawned: seq<Timer>)

  /** The background colour is a function of the kind alone. */
  function Colour(kind: string): (c: string)
    ensures c == SuccessColour <==> kind == "success"
    ensures c == ErrorColour <==> kind == "error"
    ensures c == InfoColour <==> kind != "success" && kind != "error"
  {
    if kind == "success" then SuccessColour
    else if kind == "error" then ErrorColour
    else InfoColour
  }

  /** The kind a call shows: the one given, or the default. */
  function KindOf(given: Option<string>): (k: string)
    ensures given.Some? ==> k == given.value
    ensures given.None? ==> Colour(k) == InfoColour
  {
    match given
    case Some(k) => k
    case None => DefaultKind
  }

  /** The page before any call: nothing on screen and nothing pending. */
  function Empty(start: int): Center
  {
    Center(start, None, [], 0)
  }

  /** No pending callback refers to a notification that has not been created yet. */
  ghost predicate Valid(c: Center)
  {
    forall t :: t in c.timers ==> t.target < c.nextId
  }

  /** A call: whatever was on screen is gone, the new notification shows, and its fade-out
      callback is scheduled 5000 ms ahead. */
  function Show(c: Center, message: string, kind: string): (r: Center)
    ensures r.shown == Some(Note(c.nextId, message, kind, Showing))
    ensures r.now == c.now && r.nextId == c.nextId + 1
    ensures r.timers == c.timers + [Timer(c.now + ShowMs, c.nextId, StartFade)]
    ensures Valid(c) ==> Valid(r)
  {
    Center(c.now, Some(Note(c.nextId, message, kind, Showing)),
           c.timers + [Timer(c.now + ShowMs, c.nextId, StartFade)], c.nextId + 1)
  }

  /** A call as the page makes it, with the kind defaulting to `info` when none is given. */
  function Notify(c: Center, message: string, given: Option<string>): (r: Center)
    ensures r.shown.Some? && r.shown.value.message == message && r.shown.value.phase == Showing
    ensures r.shown.value.kind == KindOf(given)
    ensures given.None? ==> Colour(r.shown.value.kind) == InfoColour
    ensures Valid(c) ==> Valid(r)
  {
    Show(c, message, KindOf(given))
  }

  /** The empty page satisfies the validity invariant, so the lifecycle lemmas apply from the
      first call on. */
  lemma EmptyIsValid(start: int)
    ensures Valid(Empty(start))
  {
  }

  /** Running one callback at time `now`. The fade-out callback marks its notification as
      fading, if it is still the one on screen, and always schedules the removal 300 ms later;
      the removal callback clears the slot only if its notification is still there. */
  function Run(shown: Option<Note>, t: Timer, now: int): (f: Fired)
    ensures f.kept == []
    ensures forall u :: u in f.spawned ==> u.target == t.target
    ensures t.action == StartFade ==> f.spawned == [Timer(now + FadeMs, t.target, Remove)]
    ensures t.action == Remove ==> f.spawned == []
    ensures shown.Some? && shown.value.id == t.target ==>
      f.shown == (if t.action == StartFade then Some(shown.value.(phase := FadingOut)) else None)
    ensures shown.None? || shown.value.id != t.target ==> f.shown == shown
  {
    var mine := shown.Some? && shown.value.id == t.target;
    match t.action
    case StartFade =>
      Fired(if mine then Some(shown.value.(phase := FadingOut)) else shown, [], [Timer(now + FadeMs, t.target, Remove)])
    case Remove =>
      Fired(if mine then None else shown, [], [])
  }

  /** Runs, in scheduling order, every callback due at `now`; the rest stay pending. */
  function FireDue(shown: Option<Note>, ts: seq<Timer>, now: int): (f: Fired)
    ensures forall u :: u in f.kept ==> u in ts && u.due > now
    ensures forall u :: u in ts && u.due > now ==> u in f.kept
    ensures forall u :: u in ts && u.due <= now && u.action == StartFade ==>
      Timer(now + FadeMs, u.target, Remove) in f.spawned
    ensures forall u :: u in f.spawned ==> exists v :: v in ts && v.target == u.target
    decreases |ts|
  {
    if ts == [] then Fired(shown, [], [])
    else if ts[0].due <= now then
      var a := Run(shown, ts[0], now);
      var rest := FireDue(a.shown, ts[1..], now);
      assert forall u :: u in rest.spawned ==> exists v :: v in ts && v.target == u.target by {
        forall u | u in rest.spawned
          ensures exists v :: v in ts && v.target == u.target
        {
          var v :| v in ts[1..] && v.target == u.target;
          assert v in ts;
        }
      }
      assert ts[0] in ts;
      Fired(rest.shown, rest.kept, a.spawned + rest.spawned)
    else
      var rest := FireDue(shown, ts[1..], now);
      assert forall u :: u in rest.spawned ==> exists v :: v in ts && v.target == u.target by {
        forall u | u in rest.spawned
          ensures exists v :: v in ts && v.target == u.target
        {
          var v :| v in ts[1..] && v.target == u.target;
          assert v in ts;
        }
      }
      Fired(rest.shown, [ts[0]] + rest.kept, rest.spawned)
  }

  /** One millisecond passes and the callbacks due by then run; the ones they schedule join
      the end of the queue. */
  function Tick(c: Center): (r: Center)
    ensures r.now == c.now + 1 && r.nextId == c.nextId
    ensures Valid(c) ==> Valid(r)
  {
    var f := FireDue(c.shown, c.timers, c.now + 1);
    var r := Center(c.now + 1, f.shown, f.kept + f.spawned, c.nextId);
    assert Valid(c) ==> Valid(r) by {
      if Valid(c) {
        forall t | t in r.timers
          ensures t.target < r.nextId
        {
          if t in f.spawned {
            var v :| v in c.timers && v.target == t.target;
          }
        }
      }
    }
    r
  }

  function Ticks(c: Center, k: nat): (r: Center)
    ensures r.now == c.now + k && r.nextId == c.nextId
    ensures Valid(c) ==> Valid(r)
    decreases k
  {
    if k == 0 then c else Ticks(Tick(c), k - 1)
  }

  /** The pending callbacks created for notification `id`, in queue order. */
  function For(ts: seq<Timer>, id: nat): (r: seq<Timer>)
    ensures forall u :: u in r ==> u in ts && u.target == id
    decreases |ts|
  {
    if ts == [] then []
    else (if ts[0].target == id then [ts[0]] else []) + For(ts[1..], id)
  }

  lemma {:induction false} ForConcat(a: seq<Timer>, b: seq<Timer>, id: nat)
    ensures For(a + b, id) == For(a, id) + For(b, id)
    decreases |a|
  {
    if a == [] {
      assert a + b == b;
    } else {
      assert (a + b)[0] == a[0];
      assert (a + b)[1..] == a[1..] + b;
      ForConcat(a[1..], b, id);
    }
  }

  lemma {:induction false} ForNone(ts: seq<Timer>, id: nat)
    requires forall u :: u in ts ==> u.target != id
    ensures For(ts, id) == []
    decreases |ts|
  {
    if ts != [] {
      assert ts[0] in ts;
      assert forall u :: u in ts[1..] ==> u in ts;
      ForNone(ts[1..], id);
    }
  }

  /** While the slot holds notification `id` or nothing, callbacks for other notifications
      change nothing: running the whole queue leaves the slot as running only `id`'s own
      callbacks would, and the callbacks left for `id` are those that running only `id`'s
      own callbacks would leave. */
  lemma {:induction false} FireDueProjects(shown: Option<Note>, ts: seq<Timer>, now: int, id: nat)
    requires shown.None? || shown.value.id == id
    ensures var f, g := FireDue(shown, ts, now), FireDue(shown, For(ts, id), now);
      f.shown == g.shown && For(f.kept, id) == g.kept && For(f.spawned, id) == g.spawned
    decreases |ts|
  {
    if ts != [] {
      var t := ts[0];
      var tail := ts[1..];
      if t.target == id {
        assert For(ts, id) == [t] + For(tail, id);
        assert ([t] + For(tail, id))[1..] == For(tail, id);
        if t.due <= now {
          var a := Run(shown, t, now);
          FireDueProjects(a.shown, tail, now, id);
          ForConcat(a.spawned, FireDue(a.shown, tail, now).spawned, id);
          assert forall u :: u in a.spawned ==> u in For(a.spawned, id) || u.target != id;
          assert For(a.spawned, id) == a.spawned by {
            match t.action
            case StartFade =>
            case Remove =>
          }
        } else {
          FireDueProjects(shown, tail, now, id);
          ForConcat([t], FireDue(shown, tail, now).kept, id);
        }
      } else {
        assert For(ts, id) == For(tail, id);
        if t.due <= now {
          var a := Run(shown, t, now);
          FireDueProjects(a.shown, tail, now, id);
          ForConcat(a.spawned, FireDue(a.shown, tail, now).spawned, id);
          ForNone(a.spawned, id);
        } else {
          FireDueProjects(shown, tail, now, id);
          ForConcat([t], FireDue(shown, tail, now).kept, id);
        }
      }
    }
  }

  /** The life of notification `n`, shown at time `t0`, when nothing replaces it: showing for
      5000 ms with its fade-out callback pending, then fading for 300 ms with its removal
      pending, then gone with nothing of its own pending. */
  ghost predicate Tracks(c: Center, n: Note, t0: int)
  {
    var age := c.now - t0;
    && 0 <= age
    && (if age < ShowMs then
          c.shown == Some(n.(phase := Showing))
          && For(c.timers, n.id) == [Timer(t0 + ShowMs, n.id, StartFade)]
        else if age < ShowMs + FadeMs then
          c.shown == Some(n.(phase := FadingOut))
          && For(c.timers, n.id) == [Timer(t0 + ShowMs + FadeMs, n.id, Remove)]
        else
          c.shown == None && For(c.timers, n.id) == [])
  }

  /** Running a queue of one callback. */
  lemma FireDueSingle(shown: Option<Note>, t: Timer, now: int)
    ensures FireDue(shown, [t], now) ==
      if t.due <= now then Fired(Run(shown, t, now).shown, [], Run(shown, t, now).spawned)
      else Fired(shown, [t], [])
  {
  }

  /** The slot and `n`'s own callbacks after a tick follow from `n`'s own callbacks alone. */
  lemma TickProjects(c: Center, id: nat)
    requires c.shown.None? || c.shown.value.id == id
    ensures Tick(c).shown == FireDue(c.shown, For(c.timers, id), c.now + 1).shown
    ensures For(Tick(c).timers, id) ==
      FireDue(c.shown, For(c.timers, id), c.now + 1).kept + FireDue(c.shown, For(c.timers, id), c.now + 1).spawned
  {
    var f := FireDue(c.shown, c.timers, c.now + 1);
    FireDueProjects(c.shown, c.timers, c.now + 1, id);
    ForConcat(f.kept, f.spawned, id);
  }

  /** A tick before 5000 ms: `n` keeps showing with its fade-out pending. */
  lemma TickStillShowing(c: Center, n: Note, t0: int)
    requires Tracks(c, n, t0) && c.now + 1 - t0 < ShowMs
    ensures Tracks(Tick(c), n, t0)
  {
    TickProjects(c, n.id);
    var t := Timer(t0 + ShowMs, n.id, StartFade);
    FireDueSingle(c.shown, t, c.now + 1);
  }

  /** The tick at 5000 ms: `n` starts fading with its removal pending. */
  lemma TickStartsFade(c: Center, n: Note, t0: int)
    requires Tracks(c, n, t0) && c.now - t0 < ShowMs && c.now + 1 - t0 == ShowMs
    ensures Tracks(Tick(c), n, t0)
  {
    TickProjects(c, n.id);
    var t := Timer(t0 + ShowMs, n.id, StartFade);
    FireDueSingle(c.shown, t, c.now + 1);
    var a := Run(c.shown, t, c.now + 1);
    assert a.shown == Some(n.(phase := FadingOut));
    assert a.spawned == [Timer(t0 + ShowMs + FadeMs, n.id, Remove)];
  }

  /** A tick while `n` is showing: it keeps showing, or starts fading at 5000 ms. */
  lemma TickWhileShowing(c: Center, n: Note, t0: int)
    requires Tracks(c, n, t0) && c.now - t0 < ShowMs
    ensures Tracks(Tick(c), n, t0)
  {
    if c.now + 1 - t0 < ShowMs {
      TickStillShowing(c, n, t0);
    } else {
      TickStartsFade(c, n, t0);
    }
  }

  /** A tick while `n` is fading: it keeps fading, or is removed at 5300 ms. */
  lemma TickWhileFading(c: Center, n: Note, t0: int)
    requires Tracks(c, n, t0) && ShowMs <= c.now - t0 < ShowMs + FadeMs
    ensures Tracks(Tick(c), n, t0)
  {
    var now := c.now + 1;
    TickProjects(c, n.id);
    var t := Timer(t0 + ShowMs + FadeMs, n.id, Remove);
    FireDueSingle(c.shown, t, now);
    var g := FireDue(c.shown, [t], now);
    if now - t0 < ShowMs + FadeMs {
      assert g == Fired(c.shown, [t], []);
    } else {
      assert g == Fired(None, [], []);
    }
  }

  /** A tick after `n` is gone changes nothing of it. */
  lemma TickWhileGone(c: Center, n: Note, t0: int)
    requires Tracks(c, n, t0) && ShowMs + FadeMs <= c.now - t0
    ensures Tracks(Tick(c), n, t0)
  {
    TickProjects(c, n.id);
    assert FireDue(c.shown, [], c.now + 1) == Fired(c.shown, [], []);
  }

  lemma TickTracks(c: Center, n: Note, t0: int)
    requires Tracks(c, n, t0)
    ensures Tracks(Tick(c), n, t0)
  {
    var age := c.now - t0;
    if age < ShowMs {
      TickWhileShowing(c, n, t0);
    } else if age < ShowMs + FadeMs {
      TickWhileFading(c, n, t0);
    } else {
      TickWhileGone(c, n, t0);
    }
  }

  lemma {:induction false} TicksTrack(c: Center, n: Note, t0: int, k: nat)
    requires Tracks(c, n, t0)
    ensures Tracks(Ticks(c, k), n, t0)
    decreases k
  {
    if k > 0 {
      TickTracks(c, n, t0);
      TicksTrack(Tick(c), n, t0, k - 1);
    }
  }

  /** A fresh notification starts its tracked life. */
  lemma ShowStartsTracking(c: Center, message: string, kind: string)
    requires Valid(c)
    ensures Tracks(Show(c, message, kind), Note(c.nextId, message, kind, Showing), c.now)
  {
    var t := Timer(c.now + ShowMs, c.nextId, StartFade);
    ForConcat(c.timers, [t], c.nextId);
    ForNone(c.timers, c.nextId);
  }

  /** An untouched notification shows for 5000 ms, fades for 300 ms, and is gone from then on. */
  lemma UntouchedLifecycle(c: Center, message: string, kind: string, k: nat)
    requires Valid(c)
    ensures var r := Ticks(Show(c, message, kind), k);
      && (k < ShowMs ==> r.shown == Some(Note(c.nextId, message, kind, Showing)))
      && (ShowMs <= k < ShowMs + FadeMs ==> r.shown == Some(Note(c.nextId, message, kind, FadingOut)))
      && (ShowMs + FadeMs <= k ==> r.shown == None)
  {
    var n := Note(c.nextId, message, kind, Showing);
    ShowStartsTracking(c, message, kind);
    TicksTrack(Show(c, message, kind), n, c.now, k);
  }

  /** A replaced notification never comes back: after a second call, whatever time passes, the
      slot holds the second notification or nothing, so the first never starts its fade-out
      on screen. */
  lemma ReplacedNeverReturns(c: Center, first: string, k1: string, wait: nat,
                             second: string, k2: string, k: nat)
    requires Valid(c)
    ensures var c1 := Ticks(Show(c, first, k1), wait);
      var r := Ticks(Show(c1, second, k2), k);
      && (r.shown.None? || (r.shown.value.id == c.nextId + 1 && r.shown.value.message == second))
      && (k < ShowMs ==> r.shown == Some(Note(c.nextId + 1, second, k2, Showing)))
  {
    var c1 := Ticks(Show(c, first, k1), wait);
    assert Valid(c1);
    var n := Note(c1.nextId, second, k2, Showing);
    ShowStartsTracking(c1, second, k2);
    TicksTrack(Show(c1, second, k2), n, c1.now, k);
  }
}

=== FILE: scroll_router.dfy ===
/**
 The scroll handler of the page: two threshold flags (navbar "scrolled", scroll-to-top
 button "visible") and the active-section highlighting of the navigation links.
 Sections are the `section[id]` elements in document order, with integer layout offsets;
 links are the `.nav-link` elements, each with its href and its "active" class flag.
 */
module ScrollRouter {
  import opened Common

  /** Offsets above which the navbar is "scrolled" and the scroll-to-top button "visible". */
  const ScrolledThreshold: int := 50
  const ScrollTopThreshold: int := 300
  /** A section's match window starts this many pixels above its top. */
  const SectionLead: int := 100

  datatype Section = Section(id: string, top: int, height: int)
  datatype NavLink = NavLink(href: string, active: bool)

  /** The visible state the scroll handler maintains. */
  datatype Page = Page(navbarScrolled: bool, scrollTopVisible: bool, links: seq<NavLink>)

  predicate NavbarScrolled(y: int) { y > ScrolledThreshold }

  predicate ScrollTopVisible(y: int) { y > ScrollTopThreshold }

  /** A section matches scroll offset `y` when `top - 100 < y <= top - 100 + height`. */
  predicate Matches(s: Section, y: int)
  {
    s.top - SectionLead < y <= s.top - SectionLead + s.height
  }

  /** The href a link needs to point at section `id`. */
  function Anchor(id: string): string { "#" + id }

  /** One matching section's effect: every link's flag is cleared, then set on the links
      whose href is `"#" + id`. */
  function Highlight(links: seq<NavLink>, id: string): (r: seq<NavLink>)
    ensures |r| == |links|
    ensures forall k :: 0 <= k < |r| ==> r[k].href == links[k].href
    ensures forall k :: 0 <= k < |r| ==> (r[k].active <==> links[k].href == Anchor(id))
  {
    seq(|links|, k requires 0 <= k < |links| => NavLink(links[k].href, links[k].href == Anchor(id)))
  }

  /** The scan over the sections in document order; every match rewrites all flags. */
  function UpdateActive(sections: seq<Section>, links: seq<NavLink>, y: int): (r: seq<NavLink>)
    ensures |r| == |links|
    ensures forall k :: 0 <= k < |r| ==> r[k].href == links[k].href
    decreases |sections|
  {
    if sections == [] then links
    else
      var next := if Matches(sections[0], y) then Highlight(links, sections[0].id) else links;
      UpdateActive(sections[1..], next, y)
  }

  /** Reference definition of the winner: the index of the last section in document order
      that matches `y`, if any. */
  function LastMatchIndex(sections: seq<Section>, y: int): (r: Option<nat>)
    ensures r.Some? ==> r.value < |sections| && Matches(sections[r.value], y)
    ensures r.Some? ==> forall j :: r.value < j < |sections| ==> !Matches(sections[j], y)
    ensures r.None? ==> forall j :: 0 <= j < |sections| ==> !Matches(sections[j], y)
    decreases |sections|
  {
    if sections == [] then None
    else if Matches(sections[|sections| - 1], y) then Some(|sections| - 1)
    else LastMatchIndex(sections[..|sections| - 1], y)
  }

  /** The links after an update, as the last match decides them. */
  function Expected(sections: seq<Section>, links: seq<NavLink>, y: int): seq<NavLink>
  {
    match LastMatchIndex(sections, y)
    case Some(i) => Highlight(links, sections[i].id)
    case None => links
  }

  /** A later highlight overrides an earlier one completely. */
  lemma HighlightOverrides(links: seq<NavLink>, a: string, b: string)
    ensures Highlight(Highlight(links, a), b) == Highlight(links, b)
  {
  }

  /** The reference winner is pinned down by its contract: a matching index with no later match. */
  lemma LastMatchIsUnique(sections: seq<Section>, y: int, i: nat)
    requires i < |sections| && Matches(sections[i], y)
    requires forall j :: i < j < |sections| ==> !Matches(sections[j], y)
    ensures LastMatchIndex(sections, y) == Some(i)
  {
  }

  /** The winner of a non-empty list, read from its head and the winner of its tail. */
  lemma {:induction false} LastMatchCons(sections: seq<Section>, y: int)
    requires sections != []
    ensures LastMatchIndex(sections, y) ==
      match LastMatchIndex(sections[1..], y)
      case Some(i) => Some(i + 1)
      case None => if Matches(sections[0], y) then Some(0) else None
  {
  }

  /** Last match wins, and with no match the flags stay as they were. */
  lemma {:induction false} LastMatchWins(sections: seq<Section>, links: seq<NavLink>, y: int)
    ensures UpdateActive(sections, links, y) == Expected(sections, links, y)
    decreases |sections|
  {
    if sections != [] {
      var tail := sections[1..];
      var next := if Matches(sections[0], y) then Highlight(links, sections[0].id) else links;
      LastMatchWins(tail, next, y);
      LastMatchCons(sections, y);
      match LastMatchIndex(tail, y)
      case Some(i) =>
        assert sections[i + 1] == tail[i];
        if Matches(sections[0], y) {
          HighlightOverrides(links, sections[0].id, tail[i].id);
        }
      case None =>
    }
  }

  /** After an update in which some section matched, a link is active exactly when its
      href names the last matching section. */
  lemma {:induction false} ActiveIffLastMatch(sections: seq<Section>, links: seq<NavLink>, y: int, i: nat)
    requires LastMatchIndex(sections, y) == Some(i)
    ensures var r := UpdateActive(sections, links, y);
      forall k :: 0 <= k < |r| ==> (r[k].active <==> links[k].href == Anchor(sections[i].id))
  {
    LastMatchWins(sections, links, y);
  }

  /** When no section matches, every flag is left exactly as it was. */
  lemma {:induction false} NoMatchKeepsFlags(sections: seq<Section>, links: seq<NavLink>, y: int)
    requires forall j :: 0 <= j < |sections| ==> !Matches(sections[j], y)
    ensures UpdateActive(sections, links, y) == links
  {
    LastMatchWins(sections, links, y);
  }

  /** The final flags depend on the sections only through the last match: two section lists
      whose last matches carry the same id give the same links. */
  lemma OnlyLastMatchMatters(s1: seq<Section>, s2: seq<Section>, links: seq<NavLink>, y: int, i1: nat, i2: nat)
    requires LastMatchIndex(s1, y) == Some(i1) && LastMatchIndex(s2, y) == Some(i2)
    requires s1[i1].id == s2[i2].id
    ensures UpdateActive(s1, links, y) == UpdateActive(s2, links, y)
  {
    LastMatchWins(s1, links, y);
    LastMatchWins(s2, links, y);
  }

  predicate DistinctHrefs(links: seq<NavLink>)
  {
    forall j, k :: 0 <= j < k < |links| ==> links[j].href != links[k].href
  }

  predicate AtMostOneActive(links: seq<NavLink>)
  {
    forall j, k :: 0 <= j < |links| && 0 <= k < |links| && links[j].active && links[k].active ==> j == k
  }

  /** With distinct hrefs an update in which some section matches leaves at most one link
      active, whatever the flags were before; with no match this holds when it held before,
      since the flags are kept. */
  lemma {:induction false} UpdateKeepsAtMostOneActive(sections: seq<Section>, links: seq<NavLink>, y: int)
    requires DistinctHrefs(links)
    requires LastMatchIndex(sections, y).Some? || AtMostOneActive(links)
    ensures AtMostOneActive(UpdateActive(sections, links, y))
  {
    LastMatchWins(sections, links, y);
    var r := UpdateActive(sections, links, y);
    match LastMatchIndex(sections, y)
    case Some(i) =>
      forall j, k | 0 <= j < |r| && 0 <= k < |r| && r[j].active && r[k].active
        ensures j == k
      {
        assert links[j].href == links[k].href;
      }
    case None =>
  }

  /** The scroll handler: both flags from the offset, then the section scan. */
  function OnScroll(page: Page, sections: seq<Section>, y: int): (r: Page)
    ensures r.navbarScrolled <==> y > 50
    ensures r.scrollTopVisible <==> y > 300
    ensures r.links == Expected(sections, page.links, y)
  {
    LastMatchWins(sections, page.links, y);
    Page(NavbarScrolled(y), ScrollTopVisible(y), UpdateActive(sections, page.links, y))
  }

  /** Both flags are off at exactly 50 and 300, the button is never visible without the
      scrolled navbar, and both flags only switch on as the offset grows. */
  lemma ScrollFlagBoundaries(y: int, z: int)
    ensures !NavbarScrolled(50) && NavbarScrolled(51)
    ensures !ScrollTopVisible(300) && ScrollTopVisible(301)
    ensures ScrollTopVisible(y) ==> NavbarScrolled(y)
    ensures y <= z ==> (NavbarScrolled(y) ==> NavbarScrolled(z)) && (ScrollTopVisible(y) ==> ScrollTopVisible(z))
  {
  }
}

=== FILE: theme.dfy ===
/**
 The light/dark theme switch. The page keeps the theme in the `data-theme` attribute,
 persists it under the storage key `theme`, and shows a sun icon in dark mode and a moon
 icon otherwise. Storage is modelled by the value read (`None` when the key is absent)
 and the value written.
 */
module Theme {
  import opened Common

  const Dark: string := "dark"
  const Light: string := "light"
  const SunIcon: string := "fas fa-sun"
  const MoonIcon: string := "fas fa-moon"

  /** The theme attribute, the stored preference and the toggle button's icon class. */
  datatype ThemeState = ThemeState(current: string, stored: Option<string>, icon: string)

  /** The theme read at load time: the stored value, unless it is absent or empty. */
  function InitialTheme(stored: Option<string>): (t: string)
    ensures stored.Some? && stored.value != "" ==> t == stored.value
    ensures stored.None? || stored.value == "" ==> t == Dark
    ensures t != ""
  {
    if stored.Some? && stored.value != "" then stored.value else Dark
  }

  /** The click handler's rule: dark becomes light, anything else becomes dark. */
  function Toggle(t: string): (r: string)
    ensures r == Dark || r == Light
    ensures r == Light <==> t == Dark
  {
    if t == Dark then Light else Dark
  }

  /** The icon class for a theme. */
  function Icon(t: string): (c: string)
    ensures c == SunIcon <==> t == Dark
    ensures c == MoonIcon <==> t != Dark
  {
    if t == Dark then SunIcon else MoonIcon
  }

  /** The icon always shows the current theme. */
  predicate Consistent(s: ThemeState)
  {
    s.icon == Icon(s.current)
  }

  /** Page load: apply the stored (or default) theme and its icon; storage is not written. */
  function Load(stored: Option<string>): (s: ThemeState)
    ensures Consistent(s)
    ensures s.stored == stored
    ensures s.current == InitialTheme(stored)
  {
    var t := InitialTheme(stored);
    ThemeState(t, stored, Icon(t))
  }

  /** A click on the theme button: toggle, write the new theme to storage, update the icon. */
  function Click(s: ThemeState): (r: ThemeState)
    ensures Consistent(r)
    ensures r.current == Toggle(s.current)
    ensures r.current == Dark || r.current == Light
    ensures r.stored == Some(r.current)
    ensures r.current != s.current
  {
    var t := Toggle(s.current);
    ThemeState(t, Some(t), Icon(t))
  }

  /** Toggling twice is the identity on the two known themes. */
  lemma ToggleTwice(t: string)
    requires t == Dark || t == Light
    ensures Toggle(Toggle(t)) == t
  {
  }

  /** Outside the two known themes toggling twice lands on light, not on the start value. */
  lemma ToggleTwiceUnknown(t: string)
    requires t != Dark && t != Light
    ensures Toggle(Toggle(t)) == Light
  {
  }

  /** After any click the preference survives a reload: loading the stored value gives back
      the theme and icon the page had. */
  lemma ReloadAfterClick(s: ThemeState)
    ensures Load(Click(s).stored) == Click(s)
  {
  }

  /** Two clicks from a loaded page with a known theme restore the theme and icon. */
  lemma TwoClicksRestore(stored: Option<string>)
    requires InitialTheme(stored) == Dark || InitialTheme(stored) == Light
    ensures Click(Click(Load(stored))).current == Load(stored).current
    ensures Click(Click(Load(stored))).icon == Load(stored).icon
  {
  }
}

=== FILE: typewriter.dfy ===
/**
 The hero name animation: the element is emptied, then each call of the step appends the
 next character of the target text and schedules another call, until the text is complete.
 The timer delay only spaces the calls out, so the model counts calls.
 */
module TypeWriter {
  import opened Common

  /** The position of the next character and the element's text so far. */
  datatype Typing = Typing(i: nat, content: string)

  /** The element is cleared before the first call. */
  const Start: Typing := Typing(0, "")

  /** The result of one call: the new state, and whether another call was scheduled. */
  datatype Typed = Typed(state: Typing, rescheduled: bool)

  /** One call: append the next character and reschedule, or do nothing once done. */
  function Type(text: string, s: Typing): (r: Typed)
    ensures r.rescheduled <==> s.i < |text|
    ensures r.rescheduled ==> r.state == Typing(s.i + 1, s.content + [text[s.i]])
    ensures !r.rescheduled ==> r.state == s
  {
    if s.i < |text| then Typed(Typing(s.i + 1, s.content + [text[s.i]]), true)
    else Typed(s, false)
  }

  /** The state after `k` calls from the start. */
  function After(text: string, k: nat): Typing
    decreases k
  {
    if k == 0 then Start else Type(text, After(text, k - 1)).state
  }

  /** After `k` calls the element shows the first `min(k, |text|)` characters of the text. */
  lemma {:induction false} AfterIsPrefix(text: string, k: nat)
    ensures After(text, k).i == Min(k, |text|)
    ensures After(text, k).content == text[..Min(k, |text|)]
    decreases k
  {
    if k > 0 {
      AfterIsPrefix(text, k - 1);
      var m := Min(k - 1, |text|);
      if m < |text| {
        assert text[..m + 1] == text[..m] + [text[m]];
      }
    }
  }

  /** The shown text is always a prefix of the target, and the animation keeps rescheduling
      exactly while the text is incomplete: after `|text| + 1` calls the chain stops with the
      whole text shown. */
  lemma TypingEnds(text: string, k: nat)
    ensures After(text, k).content <= text
    ensures Type(text, After(text, k)).rescheduled <==> k < |text|
    ensures k >= |text| ==> After(text, k).content == text
  {
    AfterIsPrefix(text, k);
  }
}
